=== FILE: README.md ===
# Search specification conversion layer

This project models the conversion layer of the flashcard search service in
`rslib/src/backend/search.rs`. The layer turns a structured search
specification (`pb::SearchNode`) into a search expression tree (`Node`). It
also holds the small closed tables around the builder:

- joiner to boolean separator;
- answer rating to rating kind;
- card state to state kind;
- note-id list to comma text;
- sort kind and sort order to sort mode;
- browser-row colour to its wire integer.

It also models what the request handlers compute themselves:

- unwrapping the node a replacement edits;
- normalising the find-and-replace pattern;
- the order in which the handlers' builder errors propagate.

The code that these handlers call but that is not part of this model is
passed in as function-valued parameters. That code is wildcard escaping,
`regex::escape`, the free-text parser, `Node::negated`, the tree writer,
`into_node_list`, `concatenate_searches` and `replace_search_node`. Every statement below holds
for any implementation of them, some only under conditions on them that the
statement names (a parser and negation that keep trees well formed, an escape
that does not begin with "(").

Modules:

- `Wrappers`: `Option`, `Result` and the error kinds.
- `Numbers`: fixed-width integers as bounded `int`s, the `u32 → u16` cast, and
  decimal rendering with its parse-back.
- `IdList`: `into_id_string`, Rust's `join`/`split`, and reading an id string back.
- `SearchTree`: `Node`, `SearchNode`, the kinds, interspersion, and the
  well-formedness invariant of built trees.
- `SearchProto`: the request messages.
- `Conversions`: the closed enum tables, each with its inverse.
- `SortModes`: sort kind and sort order resolution.
- `Builder`: `TryFrom<pb::SearchNode> for Node`.
- `SearchService`: the request handlers' own logic.

Points worth knowing about the code:

- `Node::negated` is a parameter, so nothing is claimed about double
  negation: a negated child is whatever the `negated` parameter gives.
- `replace_search_node` is called with no target node (search.rs:69). The
  model only unwraps the existing node and hands the sequence on.
- For a literal search, the pattern starts with `(?i)` exactly when case is
  ignored, given that escaping never produces a leading "("
  (`CaseFlagIffIgnoringCase`). A regex search can carry `(?i)` in its own
  text (`RegexSearchMayCarryFlag`).

## Model

| member | source | states |
|---|---|---|
| Builder.Build | rslib/src/backend/search.rs:99-191 | no filter builds `WholeCollection`; any failure is the "empty group" invalid-input error or an error the free-text parser reported |
| Builder.BuildAll | rslib/src/backend/search.rs:168-172 | collecting the children succeeds exactly when every child builds, keeping their order; otherwise it gives the error of the first failing child, with every earlier child building |
| Builder.BuildFailsIff | rslib/src/backend/search.rs:156-185 | a specification fails exactly when it reaches an empty group or free text the parser rejects, through negations and groups of any size |
| Builder.EmptyGroupFails | rslib/src/backend/search.rs:157-159 | a group with zero children fails with invalid input "empty group", for either joiner |
| Builder.SingleChildGroupCollapses | rslib/src/backend/search.rs:160-161 | a one-child group builds to the same value or error as the child alone; the joiner is ignored |
| Builder.GroupOfManyShape | rslib/src/backend/search.rs:163-174 | for n ≥ 2 children that all build, the result is a group of length 2n−1 with the i-th built child at position 2i and the joiner at every odd position; if any child fails, the group fails with the first failure |
| Builder.GroupOperandsAreChildren | rslib/src/backend/search.rs:168-174 | the operand positions of a built group are exactly the built children, recovered by taking its even positions |
| Builder.JoinerNode | rslib/src/backend/search.rs:164-167 | the group's joiner becomes the `And` marker exactly for the And joiner, and is always a joiner marker |
| Builder.FlagNode | rslib/src/backend/search.rs:148-155 | "any flag" and undecodable flags give `Not(Flag(0))`, and only they do; every other flag gives a flag leaf numbered 0 to 4 |
| Builder.FlagNodeRoundTrip | rslib/src/backend/search.rs:148-155 | distinct known flags build distinct nodes, and an undecodable integer builds as "any flag" |
| Builder.FlagFilters | rslib/src/backend/search.rs:148-150 | "no flag" builds `Flag(0)`, while "any flag" and an unknown integer build its negation |
| Builder.PatternsEscaped | rslib/src/backend/search.rs:108-128 | tag, note-type and field-name patterns are always escaped; a deck pattern is escaped unless it is exactly "*"; a field-name filter matches text "*" and is not a regex |
| Builder.LeafFilters | rslib/src/backend/search.rs:120-142 | duplicates keep note type and text; ratings keep days and map the rating through the rating table; "added in days" and "edited in days" pass their day counts through |
| Builder.DueAndStateFilters | rslib/src/backend/search.rs:134-147 | "due in days" compares with "<=" and "due on day" with "="; a card state maps through the state table and an undecodable one searches for new cards |
| Builder.NoteIdFilters | rslib/src/backend/search.rs:118-119 | a single note id builds like a one-element id list, and an id list's text reads back as exactly the given ids |
| Builder.TemplateOrdinalTruncated | rslib/src/backend/search.rs:115-117 | the template ordinal is kept when it fits in 16 bits; ordinals 65536 apart build the same node |
| Builder.NegatedPropagates | rslib/src/backend/search.rs:156 | a negated specification fails exactly when its term fails, with the same error, and otherwise gives the term's tree passed through `negated` |
| Builder.FreeTextBuild | rslib/src/backend/search.rs:178-185 | a parser error is returned verbatim; a single parsed node is returned unwrapped; any other node sequence is wrapped in a group unchanged |
| Builder.BuildWellFormed | rslib/src/backend/search.rs:157-185 | if the parser and negation keep trees well formed, every built tree is well formed: no bare joiner, and every group holds at least two operands with a joiner between each pair |
| Numbers.TruncateToU16 | rslib/src/backend/search.rs:116 | `u as u16` keeps values below 65536 and otherwise differs from the input by a multiple of 65536 |
| Numbers.IntToString | rslib/src/backend/search.rs:118 | a note id renders as a nonempty string with no comma, starting with "-" exactly when the id is negative, in canonical form: digits without a leading zero, and never "-0" |
| Numbers.CanonicalDecimalUnique | rslib/src/backend/search.rs:118 | the rendering is the only canonical decimal text that reads back as the id, so text such as "05" for 5 is never produced |
| Numbers.IntToStringRoundTrip | rslib/src/backend/search.rs:118 | the decimal rendering of a note id parses back to the same id |
| Numbers.IntToStringInjective | rslib/src/backend/search.rs:118 | distinct ids render to distinct decimal strings |
| IdList.IdString | rslib/src/backend/search.rs:228-235 | the id string is empty exactly for no ids; n ≥ 1 ids give exactly n−1 commas; one id gives its decimal rendering; splitting it on "," gives exactly the ids' decimal renderings, in order |
| IdList.IdStringRoundTrip | rslib/src/backend/search.rs:228-235 | splitting the id string on "," and parsing each piece gives back the ids in caller order with duplicates kept |
| IdList.IdStringInjective | rslib/src/backend/search.rs:228-235 | two id lists give the same string only if they are equal, including their order and repeated ids |
| IdList.SplitJoin | rslib/src/backend/search.rs:234 | splitting undoes `join(",")` when no part contains a comma |
| SearchTree.Intersperse | rslib/src/backend/search.rs:173 | interspersing n ≥ 1 operands gives 2n−1 entries: operands at even positions in order, the joiner at odd positions; no operands gives nothing |
| SearchTree.IntersperseCharacterized | rslib/src/backend/search.rs:173 | the position-wise description holds of a sequence exactly when it is the interspersion |
| SearchTree.EvenPositionsOfIntersperse | rslib/src/backend/search.rs:173 | taking the even positions of an interspersion gives the operands back |
| SearchTree.IntersperseWellFormed | rslib/src/backend/search.rs:163-174 | two or more well-formed operands interspersed with a joiner form a well-formed group |
| Conversions.SeparatorOf | rslib/src/backend/search.rs:193-200 | the And joiner maps to the And separator and only it does |
| Conversions.SeparatorRoundTrip | rslib/src/backend/search.rs:193-200 | the joiner table is a bijection with its inverse |
| Conversions.RatingKindOf | rslib/src/backend/search.rs:202-213 | the four answer ratings give answer buttons 1 to 4; "any" and "by reschedule" give the two other kinds, each exactly |
| Conversions.RatingKindRoundTrip | rslib/src/backend/search.rs:202-213 | the rating table is one-to-one, and its image is every kind except answer buttons outside 1 to 4 |
| Conversions.StateKindOf | rslib/src/backend/search.rs:215-226 | each card state maps to its own state kind, in both directions |
| Conversions.StateKindRoundTrip | rslib/src/backend/search.rs:215-226 | the card-state table is a bijection with its inverse |
| Conversions.RowColorCode | rslib/src/backend/search.rs:293-305 | every row colour has a code from 0 to 6, and 0 is exactly the default colour |
| Conversions.RowColorCodeRoundTrip | rslib/src/backend/search.rs:293-305 | distinct colours get distinct codes, and the codes used are exactly 0 to 6 |
| SortModes.SortKindOf | rslib/src/backend/search.rs:238-256 | each wire sort kind maps to the collection kind that maps back to it |
| SortModes.SortKindBijective | rslib/src/backend/search.rs:238-256 | the sort-kind table is a bijection between the 13 wire kinds and the 13 collection kinds |
| SortModes.SortKindInjective | rslib/src/backend/search.rs:238-256 | distinct wire kinds map to distinct collection kinds |
| SortModes.SortModeOf | rslib/src/backend/search.rs:258-271 | an absent order resolves to `FromConfig`; none, custom and builtin orders resolve to their own modes, keeping the custom text and the reverse flag |
| SortModes.SortModeRoundTrip | rslib/src/backend/search.rs:258-271 | resolution is inverted by mapping a mode back to its wire value, which gives an absent order as "from config" |
| SortModes.RequestSortMode | rslib/src/backend/search.rs:32 | a card search without an order uses the configured order |
| SearchService.BuildSearchString | rslib/src/backend/search.rs:25-28 | fails exactly when the specification reaches an empty group or free text the parser rejects, and then with the builder's own error unchanged; otherwise renders the node list of the built tree |
| SearchService.SpecOrDefault | rslib/src/backend/search.rs:52 | an absent specification is the empty one, and a present one is kept |
| SearchService.JoinSearchNodes | rslib/src/backend/search.rs:49-57 | fails exactly when the existing or the additional specification fails, with the existing node's own error if it fails, else the additional node's own error; otherwise joins the existing node's list with the additional node under the joiner's separator |
| SearchService.JoinWithAbsentExisting | rslib/src/backend/search.rs:52 | an absent existing node joins as the whole collection |
| SearchService.ExistingNodes | rslib/src/backend/search.rs:60-67 | a group unwraps to its own sequence; any other node becomes a one-element sequence containing it |
| SearchService.ExistingNodesRoundTrip | rslib/src/backend/search.rs:60-67 | unwrapping loses nothing: regrouping gives the node back, for every node except a group of one non-group node |
| SearchService.BuiltNodeRegroups | rslib/src/backend/search.rs:60-67 | when the parser and negation keep trees well formed, every built tree survives unwrapping and regrouping unchanged |
| SearchService.ExistingNodesOfWellFormed | rslib/src/backend/search.rs:60-67 | a well-formed node unwraps to an odd-length sequence whose joiners are exactly at the odd positions |
| SearchService.ExistingNodesOfGroup | rslib/src/backend/search.rs:60-67 | a built group of two or more children unwraps to the built children interspersed with the joiner |
| SearchService.ReplaceSearchNode | rslib/src/backend/search.rs:59-70 | the existing node's error comes first, then the replacement's; otherwise the replacement is applied to the unwrapped sequence |
| SearchService.AbsentNodeIsWholeCollection | rslib/src/backend/search.rs:61 | an absent existing node builds to the whole collection and unwraps to that single node |
| SearchService.SearchPattern | rslib/src/backend/search.rs:73-80 | when case is ignored, the pattern is "(?i)" followed by the body, and otherwise it is the body alone; the body is the search itself for a regex and its escape for a literal |
| SearchService.CaseFlagIffIgnoringCase | rslib/src/backend/search.rs:73-80 | for a literal search whose escape does not start with "(", the pattern starts with "(?i)" exactly when case is ignored |
| SearchService.RegexSearchMayCarryFlag | rslib/src/backend/search.rs:73-80 | a regex search "(?i)a" with case matching on still starts with the flag |
| SearchService.FieldNameOf | rslib/src/backend/search.rs:82-86 | the field restriction is absent exactly for the empty name, and a present restriction holds the name |
| SearchService.FindAndReplace | rslib/src/backend/search.rs:72-89 | the note ids and replacement text are passed on unchanged, the pattern is normalised, and the field name becomes optional |

## Left out

- Collection access (`with_col`): executing `search_cards`, `search_notes` and `browser_row_for_card`, and applying find and replace. Their code is not part of this model; only the sort-order resolution and find-and-replace normalisation these handlers perform are modelled.
- The free-text parser, the tree writer, `into_node_list`, `concatenate_searches`, `replace_search_node`, wildcard escaping, `regex::escape` and `Node::negated` are not part of this model. They are parameters, so nothing is claimed about their output, including whether double negation cancels.
- Wire decoding of protobuf enums. The accessors `joiner()`, `rating()` and `kind()` appear as already-decoded enums. A flag or card-state integer that names no variant appears as `None`.
- The zero variant of the card-state enum is taken to be `New`, which is what `unwrap_or_default` gives for an undecodable card state. The enum's declaration is not part of this model.
- Conversions.ColorNumber: the wire numbers 0 to 6 are taken in the colour enum's declaration order, which is not part of this model.
- Browser-row cell, font and text copying (search.rs:273-291): field-for-field moves with nothing beyond the colour table to state.
- The round trip between the tree writer and the free-text parser belongs to those two collaborators, which are not part of this model, so it is not stated.
- `SearchNode` variants that only the free-text parser creates are left out of the tree type, so the parser parameter returns trees over the modelled variants only; no statement here depends on which leaf a node holds.

=== FILE: builder.dfy ===
/** `TryFrom<pb::SearchNode> for Node`: the recursive builder that turns a
    structured search specification into a search tree.

    The helpers the builder calls but whose code lives elsewhere (wildcard
    escaping, the free-text parser and `Node::negated`) are fields of
    `Externals`, so every statement here holds for any implementation of them.
 */
module Builder {
  import opened Wrappers
  import opened Numbers
  import opened IdList
  import opened SearchTree
  import opened SearchProto
  import opened Conversions

  datatype Externals = Externals(
    escapeWildcards: string -> string,  // text::escape_anki_wildcards
    parseSearch: string -> Result<seq<Node>>,  // search::parse_search
    negated: Node -> Node)  // Node::negated

  const EMPTY_GROUP: AnkiError := InvalidInput("empty group")

  /** The deck pattern that means "every deck" and is never escaped. */
  const ANY_DECK: string := "*"

  /** The joiner marker a group specification puts between its children. */
  function JoinerNode(j: Joiner): (n: Node)
    ensures IsJoiner(n)
    ensures n == Node.And <==> j == JoinAnd
  {
    match j
    case JoinAnd => Node.And
    case JoinOr => Node.Or
  }

  /** The flag filter table; an integer that names no flag counts as "any flag". */
  function FlagNode(flag: Option<FlagKind>): (n: Node)
    ensures WellFormed(n)
    ensures n == Not(Search(Flag(0))) <==> flag.None? || flag == Some(FlagAny)
    ensures n.Search? ==> n.term.Flag? && 0 <= n.term.flag <= 4
    ensures flag.Some? ==> FlagOfNode(n) == flag
  {
    match flag.UnwrapOr(FlagAny)
    case FlagNone => Search(Flag(0))
    case FlagAny => Not(Search(Flag(0)))
    case FlagRed => Search(Flag(1))
    case FlagOrange => Search(Flag(2))
    case FlagGreen => Search(Flag(3))
    case FlagBlue => Search(Flag(4))
  }

  /** Which flag filter builds `n`, if any. */
  function FlagOfNode(n: Node): Option<FlagKind> {
    match n
    case Search(Flag(0)) => Some(FlagNone)
    case Not(Search(Flag(0))) => Some(FlagAny)
    case Search(Flag(1)) => Some(FlagKind.FlagRed)
    case Search(Flag(2)) => Some(FlagKind.FlagOrange)
    case Search(Flag(3)) => Some(FlagKind.FlagGreen)
    case Search(Flag(4)) => Some(FlagKind.FlagBlue)
    case _ => None
  }

  /** Distinct known flags build distinct nodes, and an undecodable flag
      builds the same node as "any flag". */
  lemma FlagNodeRoundTrip(f: FlagKind)
    ensures FlagOfNode(FlagNode(Some(f))) == Some(f)
    ensures FlagNode(None) == FlagNode(Some(FlagAny))
  {
  }

  /** The builder. Fails only with the empty-group error or an error the
      free-text parser reported. */
  function Build(ext: Externals, msg: SearchNodeMsg): (r: Result<Node>)
    ensures msg.filter.None? ==> r == Ok(Search(WholeCollection))
    ensures r.Err? ==> r.error == EMPTY_GROUP || ParserError(ext, r.error)
    decreases msg, 1
  {
    match msg.filter
    case None => Ok(Search(WholeCollection))
    case Some(filter) =>
      match filter
      case TagFilter(s) => Ok(Search(Tag(ext.escapeWildcards(s))))
      case DeckFilter(s) => Ok(Search(Deck(if s == ANY_DECK then s else ext.escapeWildcards(s))))
      case NoteFilter(s) => Ok(Search(NoteType(ext.escapeWildcards(s))))
      case TemplateFilter(u) => Ok(Search(CardTemplate(Ordinal(TruncateToU16(u)))))
      case NidFilter(nid) => Ok(Search(NoteIds(IntToString(nid))))
      case NidsFilter(ids) => Ok(Search(NoteIds(IdString(ids))))
      case DupeFilter(d) => Ok(Search(Duplicates(d.notetypeId, d.firstField)))
      case FieldNameFilter(s) => Ok(Search(SingleField(ext.escapeWildcards(s), "*", false)))
      case RatedFilter(rated) => Ok(Search(Rated(rated.days, RatingKindOf(rated.rating))))
      case AddedInDaysFilter(u) => Ok(Search(AddedInDays(u)))
      case DueInDaysFilter(i) => Ok(Search(Property("<=", PropertyKind.Due(i))))
      case DueOnDayFilter(i) => Ok(Search(Property("=", PropertyKind.Due(i))))
      case EditedInDaysFilter(u) => Ok(Search(EditedInDays(u)))
      case CardStateFilter(state) => Ok(Search(State(StateKindOf(state.UnwrapOr(DEFAULT_CARD_STATE)))))
      case FlagFilter(flag) => Ok(FlagNode(flag))
      case Negated(term) =>
        var inner :- Build(ext, term);
        Ok(ext.negated(inner))
      case GroupFilter(g) =>
        if |g.nodes| == 0 then Err(EMPTY_GROUP)
        else if |g.nodes| == 1 then Build(ext, g.nodes[0])
        else
          var children :- BuildAll(ext, g.nodes);
          Ok(Group(Intersperse(children, JoinerNode(g.joiner))))
      case ParsableText(text) =>
        var nodes :- ext.parseSearch(text);
        if |nodes| == 1 then Ok(nodes[0]) else Ok(Group(nodes))
  }

  /** `map(TryFrom::try_from).collect::<Result<Vec<_>>>()`: all children built
      in order, or the error of the first child that fails. */
  function BuildAll(ext: Externals, ms: seq<SearchNodeMsg>): (r: Result<seq<Node>>)
    ensures r.Ok? <==> forall i :: 0 <= i < |ms| ==> Build(ext, ms[i]).Ok?
    ensures r.Ok? ==> |r.value| == |ms|
    ensures r.Ok? ==> forall i :: 0 <= i < |ms| ==> r.value[i] == Build(ext, ms[i]).value
    ensures r.Err? ==> exists i :: 0 <= i < |ms| && Build(ext, ms[i]) == Err(r.error)
                               && forall j :: 0 <= j < i ==> Build(ext, ms[j]).Ok?
    decreases ms, 0
  {
    if |ms| == 0 then Ok([])
    else
      var head :- Build(ext, ms[0]);
      var tail :- BuildAll(ext, ms[1..]);
      assert forall i :: 1 <= i < |ms| ==> ms[i] == ms[1..][i - 1];
      Ok([head] + tail)
  }

  /** `e` is an error the free-text parser reports for some text. */
  ghost predicate ParserError(ext: Externals, e: AnkiError) {
    exists text :: ext.parseSearch(text) == Err(e)
  }

  /** Where a specification fails, stated without the builder: an empty group
      anywhere that is reached, or free text the parser rejects. */
  predicate Fails(ext: Externals, msg: SearchNodeMsg)
    decreases msg
  {
    match msg.filter
    case Some(Negated(term)) => Fails(ext, term)
    case Some(GroupFilter(g)) =>
      |g.nodes| == 0 || exists i :: 0 <= i < |g.nodes| && Fails(ext, g.nodes[i])
    case Some(ParsableText(text)) => ext.parseSearch(text).Err?
    case _ => false
  }

  /** The builder fails exactly on the specifications `Fails` describes. */
  lemma {:induction false} BuildFailsIff(ext: Externals, msg: SearchNodeMsg)
    ensures Build(ext, msg).Err? <==> Fails(ext, msg)
    decreases msg, 1
  {
    match msg.filter
    case None =>
    case Some(filter) =>
      match filter
      case Negated(term) =>
        BuildFailsIff(ext, term);
      case GroupFilter(g) =>
        if |g.nodes| == 1 {
          BuildFailsIff(ext, g.nodes[0]);
        } else if |g.nodes| > 1 {
          BuildAllFailsIff(ext, g.nodes);
        }
      case _ =>
  }

  lemma {:induction false} BuildAllFailsIff(ext: Externals, ms: seq<SearchNodeMsg>)
    ensures BuildAll(ext, ms).Err? <==> exists i :: 0 <= i < |ms| && Fails(ext, ms[i])
    decreases ms, 0
  {
    forall i | 0 <= i < |ms|
      ensures Build(ext, ms[i]).Err? <==> Fails(ext, ms[i])
    {
      BuildFailsIff(ext, ms[i]);
    }
  }

  /** A group specification with no children is an error, whatever its joiner. */
  lemma EmptyGroupFails(ext: Externals, j: Joiner)
    ensures Build(ext, SearchNodeMsg(Some(GroupFilter(GroupMsg([], j))))) == Err(EMPTY_GROUP)
  {
  }

  /** A group of one child builds exactly as that child does, value or error;
      the joiner is dropped. */
  lemma SingleChildGroupCollapses(ext: Externals, child: SearchNodeMsg, j: Joiner)
    ensures Build(ext, SearchNodeMsg(Some(GroupFilter(GroupMsg([child], j))))) == Build(ext, child)
  {
  }

  /** A group of two or more children: if every child builds, the result is a
      group holding the children in order at the even positions and the joiner
      at every odd position; otherwise it is the first failing child's error. */
  lemma GroupOfManyShape(ext: Externals, g: GroupMsg)
    requires 2 <= |g.nodes|
    ensures var r := Build(ext, SearchNodeMsg(Some(GroupFilter(g))));
      && (r.Ok? <==> forall i :: 0 <= i < |g.nodes| ==> Build(ext, g.nodes[i]).Ok?)
      && (r.Ok? ==> r.value.Group? && |r.value.nodes| == 2 * |g.nodes| - 1)
      && (r.Ok? ==> forall i :: 0 <= i < |g.nodes| ==> r.value.nodes[2 * i] == Build(ext, g.nodes[i]).value)
      && (r.Ok? ==> forall i :: 0 <= i < |r.value.nodes| && i % 2 == 1 ==> r.value.nodes[i] == JoinerNode(g.joiner))
      && (r.Err? ==> exists i :: 0 <= i < |g.nodes| && r == Build(ext, g.nodes[i])
                                  && forall j :: 0 <= j < i ==> Build(ext, g.nodes[j]).Ok?)
  {
    var r := Build(ext, SearchNodeMsg(Some(GroupFilter(g))));
    if r.Ok? {
      var children := BuildAll(ext, g.nodes).value;
      forall i | 0 <= i < |g.nodes|
        ensures r.value.nodes[2 * i] == Build(ext, g.nodes[i]).value
      {
        assert r.value.nodes[2 * i] == children[(2 * i) / 2];
      }
    }
  }

  /** The operands of a built group are exactly the built children. */
  lemma GroupOperandsAreChildren(ext: Externals, g: GroupMsg)
    requires 2 <= |g.nodes|
    requires Build(ext, SearchNodeMsg(Some(GroupFilter(g)))).Ok?
    ensures BuildAll(ext, g.nodes).Ok?
    ensures var r := Build(ext, SearchNodeMsg(Some(GroupFilter(g)))).value;
      r.Group? && EvenPositions(r.nodes) == BuildAll(ext, g.nodes).value
  {
    EvenPositionsOfIntersperse(BuildAll(ext, g.nodes).value, JoinerNode(g.joiner));
  }

  /** Every pattern-bearing filter escapes its pattern, except the deck
      pattern "*", which passes through unchanged; a field-name filter matches
      any text, literally. */
  lemma PatternsEscaped(ext: Externals, s: string)
    ensures Build(ext, SearchNodeMsg(Some(TagFilter(s)))) == Ok(Search(Tag(ext.escapeWildcards(s))))
    ensures Build(ext, SearchNodeMsg(Some(NoteFilter(s)))) == Ok(Search(NoteType(ext.escapeWildcards(s))))
    ensures Build(ext, SearchNodeMsg(Some(FieldNameFilter(s))))
         == Ok(Search(SingleField(ext.escapeWildcards(s), "*", false)))
    ensures s == ANY_DECK ==> Build(ext, SearchNodeMsg(Some(DeckFilter(s)))) == Ok(Search(Deck("*")))
    ensures s != ANY_DECK ==> Build(ext, SearchNodeMsg(Some(DeckFilter(s)))) == Ok(Search(Deck(ext.escapeWildcards(s))))
  {
  }

  /** Leaf filters that keep their fields: duplicates keep the note type and
      text; ratings keep the day count and map the rating through the rating
      table; "added" and "edited" day counts pass through. */
  lemma LeafFilters(ext: Externals, d: Dupe, rated: RatedMsg, u: u32)
    ensures Build(ext, SearchNodeMsg(Some(DupeFilter(d)))) == Ok(Search(Duplicates(d.notetypeId, d.firstField)))
    ensures Build(ext, SearchNodeMsg(Some(RatedFilter(rated))))
         == Ok(Search(Rated(rated.days, RatingKindOf(rated.rating))))
    ensures Build(ext, SearchNodeMsg(Some(AddedInDaysFilter(u)))) == Ok(Search(AddedInDays(u)))
    ensures Build(ext, SearchNodeMsg(Some(EditedInDaysFilter(u)))) == Ok(Search(EditedInDays(u)))
  {
  }

  /** "Due in days" compares with "<=" and "due on day" with "="; a card
      state maps through the state table, and an undecodable one searches
      for new cards. */
  lemma DueAndStateFilters(ext: Externals, i: i32, state: CardState)
    ensures Build(ext, SearchNodeMsg(Some(DueInDaysFilter(i)))) == Ok(Search(Property("<=", PropertyKind.Due(i))))
    ensures Build(ext, SearchNodeMsg(Some(DueOnDayFilter(i)))) == Ok(Search(Property("=", PropertyKind.Due(i))))
    ensures Build(ext, SearchNodeMsg(Some(CardStateFilter(Some(state))))) == Ok(Search(State(StateKindOf(state))))
    ensures Build(ext, SearchNodeMsg(Some(CardStateFilter(None)))) == Ok(Search(State(New)))
  {
  }

  lemma NoteIdFilters(ext: Externals, nid: i64, ids: seq<i64>)
    ensures Build(ext, SearchNodeMsg(Some(NidFilter(nid)))) == Build(ext, SearchNodeMsg(Some(NidsFilter([nid]))))
    ensures var r := Build(ext, SearchNodeMsg(Some(NidsFilter(ids))));
      r.Ok? && r.value.Search? && r.value.term.NoteIds? && ParseIdString(r.value.term.ids) == Some(ids)
  {
    IdStringRoundTrip(ids);
  }

  /** Template ordinals are truncated to 16 bits, so ordinals 65536 apart
      build the same node. */
  lemma TemplateOrdinalTruncated(ext: Externals, u: u32)
    ensures var r := Build(ext, SearchNodeMsg(Some(TemplateFilter(u))));
      r.Ok? && r.value.Search? && r.value.term.CardTemplate? &&
      (u < U16_LIMIT ==> r.value.term.template.ordinal == u)
    ensures u + U16_LIMIT < 0x1_0000_0000 ==>
      Build(ext, SearchNodeMsg(Some(TemplateFilter(u)))) == Build(ext, SearchNodeMsg(Some(TemplateFilter(u + U16_LIMIT))))
  {
  }

  /** The flag filter: "no flag" is flag 0, "any flag" is its negation. */
  lemma FlagFilters(ext: Externals)
    ensures Build(ext, SearchNodeMsg(Some(FlagFilter(Some(FlagNone))))) == Ok(Search(Flag(0)))
    ensures Build(ext, SearchNodeMsg(Some(FlagFilter(Some(FlagAny))))) == Ok(Not(Search(Flag(0))))
    ensures Build(ext, SearchNodeMsg(Some(FlagFilter(None)))) == Ok(Not(Search(Flag(0))))
  {
  }

  /** A negated specification fails exactly as its term does, with the same
      error; otherwise it is the term's tree passed through `negated`. */
  lemma NegatedPropagates(ext: Externals, term: SearchNodeMsg)
    ensures var r := Build(ext, SearchNodeMsg(Some(Negated(term))));
      && (r.Ok? <==> Build(ext, term).Ok?)
      && (r.Err? ==> r.error == Build(ext, term).error)
      && (r.Ok? ==> r.value == ext.negated(Build(ext, term).value))
  {
  }

  /** Free text: a parser error is reported verbatim, a single parsed node is
      returned unwrapped, and any other node sequence is wrapped in a group
      without change. */
  lemma FreeTextBuild(ext: Externals, text: string)
    ensures var r := Build(ext, SearchNodeMsg(Some(ParsableText(text))));
            var parsed := ext.parseSearch(text);
      && (parsed.Err? ==> r == Err(parsed.error))
      && (parsed.Ok? && |parsed.value| == 1 ==> r == Ok(parsed.value[0]))
      && (parsed.Ok? && |parsed.value| != 1 ==> r == Ok(Group(parsed.value)))
  {
  }

  /** The parser keeps the shape the builder gives trees: a single operand,
      or a well-formed group body. */
  ghost predicate ParserWellFormed(ext: Externals) {
    forall text :: ext.parseSearch(text).Ok? ==>
      var ns := ext.parseSearch(text).value;
      (|ns| == 1 && WellFormed(ns[0])) || WellFormed(Group(ns))
  }

  ghost predicate NegationWellFormed(ext: Externals) {
    forall n :: WellFormed(n) ==> WellFormed(ext.negated(n))
  }

  /** Given collaborators that keep trees well formed, every tree the builder
      returns is well formed: no bare joiner, and every group has at least two
      operands with a joiner between each pair. */
  lemma {:induction false} BuildWellFormed(ext: Externals, msg: SearchNodeMsg)
    requires ParserWellFormed(ext)
    requires NegationWellFormed(ext)
    ensures Build(ext, msg).Ok? ==> WellFormed(Build(ext, msg).value)
    decreases msg
  {
    match msg.filter
    case None =>
    case Some(filter) =>
      match filter
      case Negated(term) =>
        BuildWellFormed(ext, term);
      case GroupFilter(g) =>
        if |g.nodes| == 1 {
          BuildWellFormed(ext, g.nodes[0]);
        } else if |g.nodes| > 1 && Build(ext, msg).Ok? {
          var children := BuildAll(ext, g.nodes).value;
          forall i | 0 <= i < |children|
            ensures WellFormed(children[i])
          {
            BuildWellFormed(ext, g.nodes[i]);
          }
          IntersperseWellFormed(children, JoinerNode(g.joiner));
        }
      case _ =>
  }
}

=== FILE: conversions.dfy ===
/** The closed enum-to-enum tables of the search service: joiner to
    separator, rating to rating kind, card state to state kind, and the
    browser-row colour to its wire integer. Each table comes with its inverse
    and a round-trip lemma, which together say the table is one-to-one and
    loses nothing.
 */
module Conversions {
  import opened Wrappers
  import opened SearchTree
  import opened SearchProto

  // ---- joiner -> BoolSeparator ----

  function SeparatorOf(j: Joiner): (sep: BoolSeparator)
    ensures sep == BoolSeparator.And <==> j == JoinAnd
  {
    match j
    case JoinAnd => BoolSeparator.And
    case JoinOr => BoolSeparator.Or
  }

  function JoinerOf(sep: BoolSeparator): Joiner {
    match sep
    case And => JoinAnd
    case Or => JoinOr
  }

  lemma SeparatorRoundTrip(j: Joiner, sep: BoolSeparator)
    ensures JoinerOf(SeparatorOf(j)) == j
    ensures SeparatorOf(JoinerOf(sep)) == sep
  {
  }

  // ---- rating -> RatingKind ----

  function RatingKindOf(r: Rating): (k: RatingKind)
    ensures k.AnswerButton? ==> 1 <= k.button <= 4
    ensures k.AnswerButton? <==> r in {Again, Hard, Good, Easy}
    ensures k == AnyAnswerButton <==> r == AnyRating
    ensures k == ManualReschedule <==> r == ByReschedule
  {
    match r
    case Again => AnswerButton(1)
    case Hard => AnswerButton(2)
    case Good => AnswerButton(3)
    case Easy => AnswerButton(4)
    case AnyRating => AnyAnswerButton
    case ByReschedule => ManualReschedule
  }

  /** Which rating, if any, produces `k`. */
  function RatingOf(k: RatingKind): Option<Rating> {
    match k
    case AnswerButton(1) => Some(Again)
    case AnswerButton(2) => Some(Hard)
    case AnswerButton(3) => Some(Good)
    case AnswerButton(4) => Some(Easy)
    case AnswerButton(_) => None
    case AnyAnswerButton => Some(AnyRating)
    case ManualReschedule => Some(ByReschedule)
  }

  /** The rating table is one-to-one, and its image is exactly the kinds
      whose answer button (if any) is 1 to 4. */
  lemma RatingKindRoundTrip(r: Rating, k: RatingKind)
    ensures RatingOf(RatingKindOf(r)) == Some(r)
    ensures RatingOf(k).Some? ==> RatingKindOf(RatingOf(k).value) == k
    ensures RatingOf(k).None? <==> k.AnswerButton? && !(1 <= k.button <= 4)
  {
  }

  // ---- card state -> StateKind ----

  function StateKindOf(s: CardState): (k: StateKind)
    ensures k.New? <==> s == StateNew
    ensures k.Learning? <==> s == StateLearn
    ensures k.Review? <==> s == StateReview
    ensures k == StateKind.Due <==> s == StateDue
    ensures k.Suspended? <==> s == StateSuspended
    ensures k.Buried? <==> s == StateBuried
  {
    match s
    case StateNew => New
    case StateLearn => Learning
    case StateReview => Review
    case StateDue => StateKind.Due
    case StateSuspended => Suspended
    case StateBuried => Buried
  }

  function CardStateOf(k: StateKind): CardState {
    match k
    case New => StateNew
    case Learning => StateLearn
    case Review => StateReview
    case Due => StateDue
    case Suspended => StateSuspended
    case Buried => StateBuried
  }

  lemma StateKindRoundTrip(s: CardState, k: StateKind)
    ensures CardStateOf(StateKindOf(s)) == s
    ensures StateKindOf(CardStateOf(k)) == k
  {
  }

  // ---- browser row colour -> i32 ----

  /** `browser::RowColor`, the colour the collection computes for a row. */
  datatype RowColor =
    | Default | Marked | RowSuspended
    | FlagRed | FlagOrange | FlagGreen | FlagBlue

  function BrowserColorOf(c: RowColor): BrowserRowColor {
    match c
    case Default => ColorDefault
    case Marked => ColorMarked
    case RowSuspended => ColorSuspended
    case FlagRed => ColorFlagRed
    case FlagOrange => ColorFlagOrange
    case FlagGreen => ColorFlagGreen
    case FlagBlue => ColorFlagBlue
  }

  /** `Color as i32`: the enum's wire number, in declaration order. */
  function ColorNumber(c: BrowserRowColor): (n: int)
    ensures 0 <= n < 7
  {
    match c
    case ColorDefault => 0
    case ColorMarked => 1
    case ColorSuspended => 2
    case ColorFlagRed => 3
    case ColorFlagOrange => 4
    case ColorFlagGreen => 5
    case ColorFlagBlue => 6
  }

  /** `From<browser::RowColor> for i32`. */
  function RowColorCode(c: RowColor): (n: int)
    ensures 0 <= n < 7
    ensures n == 0 <==> c == Default
  {
    ColorNumber(BrowserColorOf(c))
  }

  /** Decodes a wire integer back to the row colour it stands for. */
  function RowColorOfCode(n: int): Option<RowColor> {
    if n == 0 then Some(Default)
    else if n == 1 then Some(Marked)
    else if n == 2 then Some(RowSuspended)
    else if n == 3 then Some(RowColor.FlagRed)
    else if n == 4 then Some(RowColor.FlagOrange)
    else if n == 5 then Some(RowColor.FlagGreen)
    else if n == 6 then Some(RowColor.FlagBlue)
    else None
  }

  /** Every colour has exactly one code, distinct colours have distinct codes,
      and the codes are exactly 0 to 6. */
  lemma RowColorCodeRoundTrip(c: RowColor, n: int)
    ensures RowColorOfCode(RowColorCode(c)) == Some(c)
    ensures RowColorOfCode(n).Some? <==> 0 <= n < 7
    ensures RowColorOfCode(n).Some? ==> RowColorCode(RowColorOfCode(n).value) == n
  {
  }
}

=== FILE: id_list.dfy ===
/** The comma-separated note-id text that `IdList::into_id_string` builds:
    every id rendered in decimal, in the caller's order, joined by ",".
    Reading it back is the partner that shows nothing is lost, reordered or
    deduplicated.
 */
module IdList {
  import opened Wrappers
  import opened Numbers

  /** Rust's `[String]::join(sep)`. */
  function Join(parts: seq<string>, sep: char): (s: string)
    ensures |parts| == 0 ==> s == ""
    ensures |parts| == 1 ==> s == parts[0]
    ensures multiset(s)[sep] == SumCounts(parts, sep) + (if |parts| == 0 then 0 else |parts| - 1)
  {
    if |parts| == 0 then ""
    else if |parts| == 1 then parts[0]
    else parts[0] + [sep] + Join(parts[1..], sep)
  }

  /** How often `c` occurs across all of `parts`. */
  function SumCounts(parts: seq<string>, c: char): nat {
    if |parts| == 0 then 0 else multiset(parts[0])[c] + SumCounts(parts[1..], c)
  }

  /** Rust's `str::split(sep)`: always at least one piece; `k` separators give
      `k + 1` pieces, some possibly empty. */
  function Split(s: string, sep: char): (pieces: seq<string>)
    ensures 1 <= |pieces|
  {
    if |s| == 0 then [""]
    else
      var rest := Split(s[1..], sep);
      if s[0] == sep then [""] + rest else [[s[0]] + rest[0]] + rest[1..]
  }

  /** The decimal renderings of `ids`, position by position. */
  function Renderings(ids: seq<i64>): (parts: seq<string>)
    ensures |parts| == |ids|
    ensures forall k :: 0 <= k < |ids| ==> parts[k] == IntToString(ids[k])
  {
    seq(|ids|, k requires 0 <= k < |ids| => IntToString(ids[k]))
  }

  /** `IdList::into_id_string`. */
  function IdString(ids: seq<i64>): (s: string)
    ensures s == "" <==> |ids| == 0
    ensures 1 <= |ids| ==> multiset(s)[','] == |ids| - 1
    ensures |ids| == 1 ==> s == IntToString(ids[0])
    ensures 1 <= |ids| ==> Split(s, ',') == Renderings(ids)
  {
    var parts := Renderings(ids);
    NoCommaInRenderings(parts);
    RenderingsCommaFree(ids);
    if |ids| == 0 then Join(parts, ',')
    else
      SplitJoin(parts, ',');
      Join(parts, ',')
  }

  lemma RenderingsCommaFree(ids: seq<i64>)
    ensures forall k :: 0 <= k < |ids| ==> ',' !in Renderings(ids)[k]
  {
    forall k | 0 <= k < |ids|
      ensures ',' !in Renderings(ids)[k]
    {
      assert Renderings(ids)[k] == IntToString(ids[k]);
    }
  }

  /** Reads an id string back into ids; `None` when some piece is not a
      decimal integer. The empty text is the empty list. */
  function ParseIdString(s: string): Option<seq<int>> {
    if s == "" then Some([]) else ParseAll(Split(s, ','))
  }

  function ParseAll(pieces: seq<string>): (r: Option<seq<int>>)
    ensures r.Some? ==> |r.value| == |pieces|
  {
    if |pieces| == 0 then Some([])
    else match (ParseInt(pieces[0]), ParseAll(pieces[1..]))
      case (Some(head), Some(tail)) => Some([head] + tail)
      case _ => None
  }

  lemma {:induction false} NoCommaInRenderings(parts: seq<string>)
    requires forall k :: 0 <= k < |parts| ==> (forall j :: 0 <= j < |parts[k]| ==> parts[k][j] != ',')
    ensures SumCounts(parts, ',') == 0
  {
    if |parts| > 0 {
      assert ',' !in multiset(parts[0]);
      NoCommaInRenderings(parts[1..]);
    }
  }

  /** Splitting `p + [sep] + rest` where `p` has no separator yields `p` first. */
  lemma {:induction false} SplitAfterPiece(p: string, sep: char, rest: string)
    requires sep !in p
    ensures Split(p + [sep] + rest, sep) == [p] + Split(rest, sep)
  {
    if |p| == 0 {
      assert p + [sep] + rest == [sep] + rest;
      assert ([sep] + rest)[1..] == rest;
    } else {
      var s := p + [sep] + rest;
      assert s[1..] == p[1..] + [sep] + rest;
      SplitAfterPiece(p[1..], sep, rest);
      assert [p[0]] + p[1..] == p;
    }
  }

  lemma {:induction false} SplitOfPiece(p: string, sep: char)
    requires sep !in p
    ensures Split(p, sep) == [p]
  {
    if |p| > 0 {
      SplitOfPiece(p[1..], sep);
      assert [p[0]] + p[1..] == p;
    }
  }

  /** Splitting undoes joining when no part contains the separator. */
  lemma {:induction false} SplitJoin(parts: seq<string>, sep: char)
    requires 1 <= |parts|
    requires forall k :: 0 <= k < |parts| ==> sep !in parts[k]
    ensures Split(Join(parts, sep), sep) == parts
  {
    if |parts| == 1 {
      SplitOfPiece(parts[0], sep);
    } else {
      SplitJoin(parts[1..], sep);
      SplitAfterPiece(parts[0], sep, Join(parts[1..], sep));
    }
  }

  lemma {:induction false} ParseAllRenderings(ids: seq<i64>)
    ensures ParseAll(Renderings(ids)) == Some(ids)
  {
    if |ids| > 0 {
      IntToStringRoundTrip(ids[0]);
      assert Renderings(ids)[1..] == Renderings(ids[1..]);
      ParseAllRenderings(ids[1..]);
      assert [ids[0]] + ids[1..] == ids;
    }
  }

  /** The id string keeps every id, in caller order, duplicates included:
      reading it back gives exactly the list that was written. */
  lemma IdStringRoundTrip(ids: seq<i64>)
    ensures ParseIdString(IdString(ids)) == Some(ids)
  {
    if |ids| > 0 {
      ParseAllRenderings(ids);
    }
  }

  /** Distinct id lists, including ones that differ only in order or in
      repeated ids, give distinct strings. */
  lemma IdStringInjective(a: seq<i64>, b: seq<i64>)
    ensures IdString(a) == IdString(b) <==> a == b
  {
    IdStringRoundTrip(a);
    IdStringRoundTrip(b);
  }
}

=== FILE: numbers.dfy ===
/** Fixed-width integers of the Rust code as bounded subsets of `int`, the one
    narrowing cast the builder performs, and the decimal rendering that Rust's
    `to_string` gives a signed integer.
 */
module Numbers {
  import opened Wrappers

  const U16_LIMIT: int := 0x1_0000

  type u8 = x: int | 0 <= x < 0x100
  type u16 = x: int | 0 <= x < U16_LIMIT
  type u32 = x: int | 0 <= x < 0x1_0000_0000
  type i32 = x: int | -0x8000_0000 <= x < 0x8000_0000
  type i64 = x: int | -0x8000_0000_0000_0000 <= x < 0x8000_0000_0000_0000

  /** Rust's `u as u16` on a `u32`: keeps the low 16 bits, silently dropping
      the rest. */
  function TruncateToU16(u: u32): (r: u16)
    ensures u < U16_LIMIT ==> r == u
    ensures (u - r) % U16_LIMIT == 0
    ensures r <= u
  {
    u % U16_LIMIT
  }

  predicate IsDigit(c: char) {
    '0' <= c <= '9'
  }

  predicate AllDigits(s: string) {
    forall i :: 0 <= i < |s| ==> IsDigit(s[i])
  }

  function DigitChar(d: nat): (c: char)
    requires d < 10
    ensures IsDigit(c)
  {
    (d + '0' as int) as char
  }

  function DigitValue(c: char): (d: nat)
    requires IsDigit(c)
    ensures d < 10
  {
    c as int - '0' as int
  }

  /** The decimal digits of `n`, most significant first, without leading zeros. */
  function NatToString(n: nat): (s: string)
    ensures 1 <= |s|
    ensures AllDigits(s)
    ensures |s| > 1 ==> s[0] != '0'
  {
    if n < 10 then [DigitChar(n)] else NatToString(n / 10) + [DigitChar(n % 10)]
  }

  /** A nonempty run of decimal digits without a leading zero, "0" itself
      excepted. */
  predicate CanonicalDigits(d: string) {
    1 <= |d| && AllDigits(d) && (|d| > 1 ==> d[0] != '0')
  }

  /** The shape Rust's `Display` gives a signed integer: canonical digits,
      optionally after a minus sign, and never "-0". */
  predicate CanonicalDecimal(s: string) {
    || CanonicalDigits(s)
    || (1 < |s| && s[0] == '-' && CanonicalDigits(s[1..]) && s[1..] != "0")
  }

  /** Rust's `Display` for a signed integer: an optional minus sign, then the
      decimal digits of the magnitude. */
  function IntToString(i: int): (s: string)
    ensures 1 <= |s|
    ensures s[0] == '-' <==> i < 0
    ensures forall k :: 0 <= k < |s| ==> s[k] != ','
    ensures CanonicalDecimal(s)
  {
    if i < 0 then
      var digits := NatToString(-i);
      assert digits != "0" by { NatToStringRoundTrip(-i); }
      assert ("-" + digits)[1..] == digits;
      "-" + digits
    else NatToString(i)
  }

  /** The value of a nonempty run of decimal digits. */
  function DigitsValue(s: string): nat
    requires 1 <= |s|
    requires AllDigits(s)
  {
    if |s| == 1 then DigitValue(s[0])
    else 10 * DigitsValue(s[..|s| - 1]) + DigitValue(s[|s| - 1])
  }

  /** Reads back what `IntToString` writes; `None` for anything that is not an
      optional minus sign followed by at least one digit. */
  function ParseInt(s: string): Option<int> {
    if 1 < |s| && s[0] == '-' && AllDigits(s[1..]) then
      var magnitude: int := DigitsValue(s[1..]);
      Some(-magnitude)
    else if 1 <= |s| && AllDigits(s) then Some(DigitsValue(s))
    else None
  }

  lemma {:induction false} NatToStringRoundTrip(n: nat)
    ensures DigitsValue(NatToString(n)) == n
  {
    if n >= 10 {
      var s := NatToString(n);
      assert s[..|s| - 1] == NatToString(n / 10);
      NatToStringRoundTrip(n / 10);
    }
  }

  /** Decimal rendering loses nothing: parsing it gives the number back. */
  lemma IntToStringRoundTrip(i: int)
    ensures ParseInt(IntToString(i)) == Some(i)
  {
    var s := IntToString(i);
    if i < 0 {
      assert s[1..] == NatToString(-i);
      NatToStringRoundTrip(-i);
    } else {
      NatToStringRoundTrip(i);
    }
  }

  /** Distinct integers have distinct decimal renderings. */
  lemma IntToStringInjective(i: int, j: int)
    ensures IntToString(i) == IntToString(j) <==> i == j
  {
    IntToStringRoundTrip(i);
    IntToStringRoundTrip(j);
  }

  /** Canonical digits are the rendering of their own value. */
  lemma {:induction false} CanonicalDigitsRendering(d: string)
    requires CanonicalDigits(d)
    ensures NatToString(DigitsValue(d)) == d
  {
    if |d| > 1 {
      var front := d[..|d| - 1];
      assert CanonicalDigits(front);
      CanonicalDigitsRendering(front);
      var n := DigitsValue(d);
      assert n / 10 == DigitsValue(front) && n % 10 == DigitValue(d[|d| - 1]);
      assert d == front + [d[|d| - 1]];
    }
  }

  /** `IntToString(i)` is the only canonical decimal that reads back as `i`:
      no other text, say one with a leading zero, renders an integer. */
  lemma CanonicalDecimalUnique(s: string, i: int)
    requires CanonicalDecimal(s)
    requires ParseInt(s) == Some(i)
    ensures s == IntToString(i)
  {
    if 1 < |s| && s[0] == '-' {
      var d := s[1..];
      CanonicalDigitsRendering(d);
      assert s == "-" + d;
    } else {
      CanonicalDigitsRendering(s);
    }
  }
}

=== FILE: search_proto.dfy ===
/** The structured request messages the search service receives: a search
    specification (`pb::SearchNode`), the sort order, the find-and-replace
    request, and the browser-row colour.

    Enum fields whose accessor already decodes the wire integer (`joiner()`,
    `rating()`, `kind()`) appear as the decoded enum. The two filters whose
    integer the builder decodes itself (`Flag`, `CardState`) carry an `Option`:
    `None` is an integer that names no variant of the enum.
 */
module SearchProto {
  import opened Wrappers
  import opened Numbers

  datatype Joiner = JoinAnd | JoinOr

  datatype Rating = Again | Hard | Good | Easy | AnyRating | ByReschedule

  datatype CardState = StateNew | StateLearn | StateReview | StateDue | StateSuspended | StateBuried

  /** The zero variant of the card-state enum, which `unwrap_or_default`
      yields for an undecodable integer. */
  const DEFAULT_CARD_STATE: CardState := StateNew

  datatype FlagKind = FlagNone | FlagAny | FlagRed | FlagOrange | FlagGreen | FlagBlue

  datatype Dupe = Dupe(notetypeId: i64, firstField: string)

  datatype RatedMsg = RatedMsg(days: u32, rating: Rating)

  datatype Filter =
    | TagFilter(tag: string)
    | DeckFilter(deck: string)
    | NoteFilter(notetype: string)
    | TemplateFilter(template: u32)
    | NidFilter(nid: i64)
    | NidsFilter(ids: seq<i64>)
    | DupeFilter(dupe: Dupe)
    | FieldNameFilter(fieldName: string)
    | RatedFilter(rated: RatedMsg)
    | AddedInDaysFilter(addedDays: u32)
    | DueInDaysFilter(dueInDays: i32)
    | DueOnDayFilter(dueOnDay: i32)
    | EditedInDaysFilter(editedDays: u32)
    | CardStateFilter(state: Option<CardState>)
    | FlagFilter(flag: Option<FlagKind>)
    | Negated(term: SearchNodeMsg)
    | GroupFilter(group: GroupMsg)
    | ParsableText(text: string)

  datatype GroupMsg = GroupMsg(nodes: seq<SearchNodeMsg>, joiner: Joiner)

  /** `pb::SearchNode`: a filter is optional. */
  datatype SearchNodeMsg = SearchNodeMsg(filter: Option<Filter>)

  /** `pb::SearchNode::default()`, what `unwrap_or_default` gives an absent node. */
  const DEFAULT_SEARCH_NODE: SearchNodeMsg := SearchNodeMsg(None)

  datatype SortKindProto =
    | SortNoteCreation | SortNoteMod | SortNoteField | SortNoteTags | SortNoteType
    | SortCardMod | SortCardReps | SortCardDue | SortCardEase | SortCardLapses
    | SortCardInterval | SortCardDeck | SortCardTemplate

  datatype BuiltinSort = BuiltinSort(kind: SortKindProto, reverse: bool)

  /** `pb::sort_order::Value`. */
  datatype SortOrderValue =
    | NoneOrder
    | CustomOrder(custom: string)
    | FromConfigOrder
    | BuiltinOrder(builtin: BuiltinSort)

  /** `pb::SortOrder`: the value is optional. */
  datatype SortOrderMsg = SortOrderMsg(value: Option<SortOrderValue>)

  /** `pb::browser_row::Color`. */
  datatype BrowserRowColor =
    | ColorDefault | ColorMarked | ColorSuspended
    | ColorFlagRed | ColorFlagOrange | ColorFlagGreen | ColorFlagBlue

  datatype FindAndReplaceIn = FindAndReplaceIn(
    nids: seq<i64>,
    search: string,
    replacement: string,
    regex: bool,
    matchCase: bool,
    fieldName: string)

  datatype JoinSearchNodesIn = JoinSearchNodesIn(
    joiner: Joiner,
    existingNode: Option<SearchNodeMsg>,
    additionalNode: Option<SearchNodeMsg>)

  datatype ReplaceSearchNodeIn = ReplaceSearchNodeIn(
    existingNode: Option<SearchNodeMsg>,
    replacementNode: Option<SearchNodeMsg>)
}

=== FILE: search_tree.dfy ===
/** The search expression tree the builder produces (`Node`, `SearchNode`
    and their parameter kinds), restricted to the variants the structured
    builder can emit, plus the joiner interspersion that makes groups.
 */
module SearchTree {
  import opened Numbers

  datatype BoolSeparator = And | Or

  datatype RatingKind =
    | AnswerButton(button: u8)
    | AnyAnswerButton
    | ManualReschedule

  datatype StateKind = New | Learning | Review | Due | Suspended | Buried

  datatype TemplateKind = Ordinal(ordinal: u16)

  datatype PropertyKind = Due(days: i32)

  /** A leaf match condition. */
  datatype SearchNode =
    | Tag(tag: string)
    | Deck(deck: string)
    | NoteType(notetype: string)
    | CardTemplate(template: TemplateKind)
    | NoteIds(ids: string)
    | Duplicates(noteTypeId: i64, text: string)
    | SingleField(field: string, text: string, isRegex: bool)
    | Rated(days: u32, ease: RatingKind)
    | AddedInDays(addedDays: u32)
    | EditedInDays(editedDays: u32)
    | Property(operator: string, kind: PropertyKind)
    | State(state: StateKind)
    | Flag(flag: u8)
    | WholeCollection

  /** A query: `And`/`Or` are joiner markers inside a group's flat sequence. */
  datatype Node =
    | And
    | Or
    | Not(inner: Node)
    | Group(nodes: seq<Node>)
    | Search(term: SearchNode)

  predicate IsJoiner(n: Node) {
    n.And? || n.Or?
  }

  /** A node as the builder shapes it: never a bare joiner; every group holds
      at least two operands alternating with joiners. */
  predicate WellFormed(n: Node) {
    match n
    case And => false
    case Or => false
    case Search(_) => true
    case Not(inner) => WellFormed(inner)
    case Group(ns) =>
      3 <= |ns| && |ns| % 2 == 1 &&
      forall i :: 0 <= i < |ns| ==> if i % 2 == 0 then WellFormed(ns[i]) else IsJoiner(ns[i])
  }

  /** Itertools' `intersperse`: `sep` between each consecutive pair. */
  function Intersperse(xs: seq<Node>, sep: Node): (r: seq<Node>)
    ensures |xs| == 0 ==> r == []
    ensures 1 <= |xs| ==> |r| == 2 * |xs| - 1
    ensures forall i :: 0 <= i < |r| && i % 2 == 0 ==> r[i] == xs[i / 2]
    ensures forall i :: 0 <= i < |r| && i % 2 == 1 ==> r[i] == sep
  {
    if |xs| <= 1 then xs else [xs[0], sep] + Intersperse(xs[1..], sep)
  }

  /** The operands of an interspersed sequence: its even positions. */
  function EvenPositions(r: seq<Node>): (xs: seq<Node>)
    ensures |xs| == (|r| + 1) / 2
    ensures forall i :: 0 <= i < |xs| ==> xs[i] == r[2 * i]
  {
    seq((|r| + 1) / 2, i requires 0 <= i < (|r| + 1) / 2 => r[2 * i])
  }

  /** Position-wise description of `r` being `xs` interspersed with `sep`. */
  predicate IsInterspersal(r: seq<Node>, xs: seq<Node>, sep: Node) {
    && (if |xs| == 0 then |r| == 0 else |r| == 2 * |xs| - 1)
    && (forall i :: 0 <= i < |r| && i % 2 == 0 ==> r[i] == xs[i / 2])
    && (forall i :: 0 <= i < |r| && i % 2 == 1 ==> r[i] == sep)
  }

  /** The position-wise description determines the interspersion exactly. */
  lemma IntersperseCharacterized(r: seq<Node>, xs: seq<Node>, sep: Node)
    ensures IsInterspersal(r, xs, sep) <==> r == Intersperse(xs, sep)
  {
    if IsInterspersal(r, xs, sep) {
      var t := Intersperse(xs, sep);
      assert |r| == |t|;
      forall i | 0 <= i < |r|
        ensures r[i] == t[i]
      {
        if i % 2 == 0 {
          assert r[i] == xs[i / 2];
        } else {
          assert r[i] == sep;
        }
      }
    }
  }

  /** Interspersing then taking the even positions gives the operands back. */
  lemma EvenPositionsOfIntersperse(xs: seq<Node>, sep: Node)
    ensures EvenPositions(Intersperse(xs, sep)) == xs
  {
    var r := Intersperse(xs, sep);
    var e := EvenPositions(r);
    assert |e| == |xs|;
    forall i | 0 <= i < |xs|
      ensures e[i] == xs[i]
    {
      assert r[2 * i] == xs[(2 * i) / 2];
    }
  }

  /** Interspersing well-formed operands with a joiner gives a well-formed
      group body once there are at least two operands. */
  lemma IntersperseWellFormed(xs: seq<Node>, sep: Node)
    requires 2 <= |xs|
    requires IsJoiner(sep)
    requires forall i :: 0 <= i < |xs| ==> WellFormed(xs[i])
    ensures WellFormed(Group(Intersperse(xs, sep)))
  {
    var r := Intersperse(xs, sep);
    forall i | 0 <= i < |r|
      ensures if i % 2 == 0 then WellFormed(r[i]) else IsJoiner(r[i])
    {
      if i % 2 == 0 {
        assert r[i] == xs[i / 2];
      }
    }
  }
}

=== FILE: service.dfy ===
/** The search service's request handlers, reduced to what they compute
    themselves: building the request's specifications (an absent one counts
    as the default, empty specification), unwrapping the node a replacement
    edits, and normalising the find-and-replace pattern. Rendering, joining
    and substituting nodes are done by collaborators given as parameters.
 */
module SearchService {
  import opened Wrappers
  import opened Numbers
  import opened SearchTree
  import opened SearchProto
  import opened Conversions
  import opened Builder

  datatype Collaborators = Collaborators(
    writeNodes: seq<Node> -> string,  // search::write_nodes
    intoNodeList: Node -> seq<Node>,  // Node::into_node_list
    concatenateSearches: (BoolSeparator, seq<Node>, Node) -> string,  // search::concatenate_searches
    replaceSearchNode: (seq<Node>, Node) -> string,  // search::replace_search_node
    regexEscape: string -> string)  // regex::escape

  /** `build_search_string`: fails exactly when the specification reaches an
      empty group or rejected free text, and then with the builder's own
      error unchanged; otherwise renders the built tree's node list. */
  function BuildSearchString(ext: Externals, col: Collaborators, msg: SearchNodeMsg): (r: Result<string>)
    ensures r.Err? <==> Fails(ext, msg)
    ensures r.Err? ==> r.error == EMPTY_GROUP || ParserError(ext, r.error)
    ensures r.Err? ==> Build(ext, msg) == Err(r.error)
    ensures r.Ok? ==> exists node :: Build(ext, msg) == Ok(node) && r.value == col.writeNodes(col.intoNodeList(node))
  {
    BuildFailsIff(ext, msg);
    var node :- Build(ext, msg);
    Ok(col.writeNodes(col.intoNodeList(node)))
  }

  /** The specification an optional request field stands for. */
  function SpecOrDefault(node: Option<SearchNodeMsg>): (m: SearchNodeMsg)
    ensures node.None? ==> m.filter.None?
    ensures node.Some? ==> m == node.value
  {
    node.UnwrapOr(DEFAULT_SEARCH_NODE)
  }

  /** `join_search_nodes`: fails exactly when either specification fails,
      with the existing node's own error if it fails, else the additional
      node's own error; otherwise joins the existing
      node's list and the additional node under the joiner's separator. */
  function JoinSearchNodes(ext: Externals, col: Collaborators, input: JoinSearchNodesIn): (r: Result<string>)
    ensures r.Err? <==> Fails(ext, SpecOrDefault(input.existingNode)) || Fails(ext, SpecOrDefault(input.additionalNode))
    ensures r.Err? ==> r.error == EMPTY_GROUP || ParserError(ext, r.error)
    ensures Fails(ext, SpecOrDefault(input.existingNode)) ==>
      r.Err? && Build(ext, SpecOrDefault(input.existingNode)).Err? && r.error == Build(ext, SpecOrDefault(input.existingNode)).error
    ensures !Fails(ext, SpecOrDefault(input.existingNode)) && Fails(ext, SpecOrDefault(input.additionalNode)) ==>
      r.Err? && Build(ext, SpecOrDefault(input.additionalNode)).Err? && r.error == Build(ext, SpecOrDefault(input.additionalNode)).error
    ensures r.Ok? ==> exists existing, additional ::
      && Build(ext, SpecOrDefault(input.existingNode)) == Ok(existing)
      && Build(ext, SpecOrDefault(input.additionalNode)) == Ok(additional)
      && r.value == col.concatenateSearches(SeparatorOf(input.joiner), col.intoNodeList(existing), additional)
  {
    BuildFailsIff(ext, SpecOrDefault(input.existingNode));
    BuildFailsIff(ext, SpecOrDefault(input.additionalNode));
    var sep := SeparatorOf(input.joiner);
    var existing :- Build(ext, SpecOrDefault(input.existingNode));
    var additional :- Build(ext, SpecOrDefault(input.additionalNode));
    Ok(col.concatenateSearches(sep, col.intoNodeList(existing), additional))
  }

  /** The sequence a replacement edits: a group's own sequence, or the node
      alone. */
  function ExistingNodes(n: Node): (ns: seq<Node>)
    ensures n.Group? ==> ns == n.nodes
    ensures !n.Group? ==> ns == [n]
  {
    if n.Group? then n.nodes else [n]
  }

  /** Puts an edited sequence back into one node: the inverse of
      `ExistingNodes`. */
  function Regroup(ns: seq<Node>): Node {
    if |ns| == 1 && !ns[0].Group? then ns[0] else Group(ns)
  }

  /** Unwrapping loses nothing for any node that is not a group of one
      non-group node. */
  lemma ExistingNodesRoundTrip(n: Node)
    requires !(n.Group? && |n.nodes| == 1 && !n.nodes[0].Group?)
    ensures Regroup(ExistingNodes(n)) == n
  {
  }

  /** When the parser and negation keep trees well formed, every built tree
      survives unwrapping and regrouping unchanged. */
  lemma BuiltNodeRegroups(ext: Externals, msg: SearchNodeMsg)
    requires ParserWellFormed(ext)
    requires NegationWellFormed(ext)
    requires Build(ext, msg).Ok?
    ensures Regroup(ExistingNodes(Build(ext, msg).value)) == Build(ext, msg).value
  {
    BuildWellFormed(ext, msg);
    ExistingNodesRoundTrip(Build(ext, msg).value);
  }

  /** An absent existing node joins as the whole collection. */
  lemma JoinWithAbsentExisting(ext: Externals, col: Collaborators, j: Joiner, additional: Option<SearchNodeMsg>)
    ensures var r := JoinSearchNodes(ext, col, JoinSearchNodesIn(j, None, additional));
            var built := Build(ext, SpecOrDefault(additional));
      && (r.Ok? <==> built.Ok?)
      && (r.Ok? ==> r.value == col.concatenateSearches(SeparatorOf(j), col.intoNodeList(Search(WholeCollection)), built.value))
  {
  }

  /** A well-formed tree unwraps to one operand, or to operands alternating
      with joiners, starting and ending with an operand. */
  lemma ExistingNodesOfWellFormed(n: Node)
    requires WellFormed(n)
    ensures |ExistingNodes(n)| % 2 == 1
    ensures var ns := ExistingNodes(n);
      forall i :: 0 <= i < |ns| ==> (IsJoiner(ns[i]) <==> i % 2 == 1)
  {
    var ns := ExistingNodes(n);
    if n.Group? {
      forall i | 0 <= i < |ns|
        ensures IsJoiner(ns[i]) <==> i % 2 == 1
      {
        if i % 2 == 0 {
          assert WellFormed(ns[i]);
        }
      }
    }
  }

  /** A built group of two or more children unwraps to the children
      interspersed with the joiner. */
  lemma ExistingNodesOfGroup(ext: Externals, g: GroupMsg)
    requires 2 <= |g.nodes|
    requires Build(ext, SearchNodeMsg(Some(GroupFilter(g)))).Ok?
    ensures BuildAll(ext, g.nodes).Ok?
    ensures ExistingNodes(Build(ext, SearchNodeMsg(Some(GroupFilter(g)))).value)
         == Intersperse(BuildAll(ext, g.nodes).value, JoinerNode(g.joiner))
  {
  }

  /** `replace_search_node`: fails with the existing node's error if it does
      not build, else with the replacement's; otherwise substitutes within the
      existing node's sequence. */
  function ReplaceSearchNode(ext: Externals, col: Collaborators, input: ReplaceSearchNodeIn): (r: Result<string>)
    ensures var existing := Build(ext, SpecOrDefault(input.existingNode));
            var replacement := Build(ext, SpecOrDefault(input.replacementNode));
      && (r.Ok? <==> existing.Ok? && replacement.Ok?)
      && (existing.Err? ==> r == Err(existing.error))
      && (existing.Ok? && replacement.Err? ==> r == Err(replacement.error))
      && (r.Ok? && existing.value.Group? ==> r.value == col.replaceSearchNode(existing.value.nodes, replacement.value))
      && (r.Ok? && !existing.value.Group? ==> r.value == col.replaceSearchNode([existing.value], replacement.value))
  {
    var existing :- Build(ext, SpecOrDefault(input.existingNode));
    var replacement :- Build(ext, SpecOrDefault(input.replacementNode));
    Ok(col.replaceSearchNode(ExistingNodes(existing), replacement))
  }

  /** An absent existing node is edited as the whole collection. */
  lemma AbsentNodeIsWholeCollection(ext: Externals)
    ensures Build(ext, SpecOrDefault(None)) == Ok(Search(WholeCollection))
    ensures ExistingNodes(Build(ext, SpecOrDefault(None)).value) == [Search(WholeCollection)]
  {
  }

  // ---- find and replace ----

  /** The inline regex flag that makes matching case-insensitive. */
  const CASE_INSENSITIVE: string := "(?i)"

  predicate StartsWith(s: string, prefix: string) {
    |prefix| <= |s| && s[..|prefix|] == prefix
  }

  /** The pattern `find_and_replace` hands to the collection: the search text
      as a regex if `regex`, else escaped to match literally; prefixed by the
      case-insensitive flag unless `matchCase`. */
  function SearchPattern(regexEscape: string -> string, search: string, regex: bool, matchCase: bool): (p: string)
    ensures var body := if regex then search else regexEscape(search);
      && (!matchCase ==> StartsWith(p, CASE_INSENSITIVE) && p[|CASE_INSENSITIVE|..] == body)
      && (matchCase ==> p == body)
  {
    var pattern := if regex then search else regexEscape(search);
    if !matchCase then CASE_INSENSITIVE + pattern else pattern
  }

  /** For a literal search whose escaped form cannot begin with "(", the flag
      is present exactly when case is ignored. */
  lemma CaseFlagIffIgnoringCase(regexEscape: string -> string, search: string, matchCase: bool)
    requires |regexEscape(search)| == 0 || regexEscape(search)[0] != '('
    ensures StartsWith(SearchPattern(regexEscape, search, false, matchCase), CASE_INSENSITIVE) <==> !matchCase
  {
  }

  /** For a regex search the user's own text can carry the flag: with
      `matchCase` set, the pattern "(?i)a" still starts with the flag. */
  lemma RegexSearchMayCarryFlag(regexEscape: string -> string)
    ensures StartsWith(SearchPattern(regexEscape, "(?i)a", true, true), CASE_INSENSITIVE)
  {
  }

  /** The optional field restriction: the empty name means every field. */
  function FieldNameOf(name: string): (f: Option<string>)
    ensures f.None? <==> name == ""
    ensures f.UnwrapOr("") == name
  {
    if name == "" then None else Some(name)
  }

  /** What `find_and_replace` passes on to the collection. */
  datatype FindAndReplaceRequest = FindAndReplaceRequest(
    nids: seq<i64>,
    search: string,
    replacement: string,
    fieldName: Option<string>)

  function FindAndReplace(col: Collaborators, input: FindAndReplaceIn): (req: FindAndReplaceRequest)
    ensures req.nids == input.nids
    ensures req.replacement == input.replacement
    ensures req.search == SearchPattern(col.regexEscape, input.search, input.regex, input.matchCase)
    ensures req.fieldName.None? <==> input.fieldName == ""
    ensures req.fieldName.Some? ==> req.fieldName.value == input.fieldName
  {
    FindAndReplaceRequest(
      input.nids,
      SearchPattern(col.regexEscape, input.search, input.regex, input.matchCase),
      input.replacement,
      FieldNameOf(input.fieldName))
  }
}

=== FILE: sort_mode.dfy ===
/** Sort-order resolution: the protobuf sort order becomes the collection's
    `SortMode`, with an absent order meaning "use the configured order".
 */
module SortModes {
  import opened Wrappers
  import opened SearchProto

  /** `config::SortKind`. */
  datatype SortKind =
    | KindNoteCreation | KindNoteMod | KindNoteField | KindNoteTags | KindNoteType
    | KindCardMod | KindCardReps | KindCardDue | KindCardEase | KindCardLapses
    | KindCardInterval | KindCardDeck | KindCardTemplate

  datatype SortMode =
    | NoOrder
    | FromConfig
    | Custom(order: string)
    | Builtin(kind: SortKind, reverse: bool)

  /** `From<SortKindProto> for SortKind`. */
  function SortKindOf(k: SortKindProto): (kind: SortKind)
    ensures SortKindProtoOf(kind) == k
  {
    match k
    case SortNoteCreation => KindNoteCreation
    case SortNoteMod => KindNoteMod
    case SortNoteField => KindNoteField
    case SortNoteTags => KindNoteTags
    case SortNoteType => KindNoteType
    case SortCardMod => KindCardMod
    case SortCardReps => KindCardReps
    case SortCardDue => KindCardDue
    case SortCardEase => KindCardEase
    case SortCardLapses => KindCardLapses
    case SortCardInterval => KindCardInterval
    case SortCardDeck => KindCardDeck
    case SortCardTemplate => KindCardTemplate
  }

  function SortKindProtoOf(k: SortKind): SortKindProto {
    match k
    case KindNoteCreation => SortNoteCreation
    case KindNoteMod => SortNoteMod
    case KindNoteField => SortNoteField
    case KindNoteTags => SortNoteTags
    case KindNoteType => SortNoteType
    case KindCardMod => SortCardMod
    case KindCardReps => SortCardReps
    case KindCardDue => SortCardDue
    case KindCardEase => SortCardEase
    case KindCardLapses => SortCardLapses
    case KindCardInterval => SortCardInterval
    case KindCardDeck => SortCardDeck
    case KindCardTemplate => SortCardTemplate
  }

  /** The kind table is a bijection between the 13 wire kinds and the 13
      collection kinds. */
  lemma SortKindBijective(p: SortKindProto, k: SortKind)
    ensures SortKindProtoOf(SortKindOf(p)) == p
    ensures SortKindOf(SortKindProtoOf(k)) == k
  {
  }

  lemma SortKindInjective(p: SortKindProto, q: SortKindProto)
    ensures SortKindOf(p) == SortKindOf(q) <==> p == q
  {
    SortKindBijective(p, KindNoteCreation);
    SortKindBijective(q, KindNoteCreation);
  }

  /** `From<Option<SortOrderProto>> for SortMode`. */
  function SortModeOf(order: Option<SortOrderValue>): (m: SortMode)
    ensures order.None? ==> m == FromConfig
    ensures m.FromConfig? <==> order.None? || order == Some(FromConfigOrder)
    ensures m.NoOrder? <==> order == Some(NoneOrder)
    ensures m.Custom? <==> order.Some? && order.value.CustomOrder?
    ensures m.Custom? ==> m.order == order.value.custom
    ensures m.Builtin? <==> order.Some? && order.value.BuiltinOrder?
    ensures m.Builtin? ==> m.reverse == order.value.builtin.reverse
  {
    match order.UnwrapOr(FromConfigOrder)
    case NoneOrder => NoOrder
    case CustomOrder(s) => Custom(s)
    case FromConfigOrder => FromConfig
    case BuiltinOrder(b) => Builtin(SortKindOf(b.kind), b.reverse)
  }

  /** The wire value that resolves to `m`. */
  function SortOrderValueOf(m: SortMode): SortOrderValue {
    match m
    case NoOrder => NoneOrder
    case FromConfig => FromConfigOrder
    case Custom(s) => CustomOrder(s)
    case Builtin(k, rev) => BuiltinOrder(BuiltinSort(SortKindProtoOf(k), rev))
  }

  /** Resolution loses nothing except the difference between an absent order
      and an explicit "from config" order. */
  lemma SortModeRoundTrip(m: SortMode, order: Option<SortOrderValue>)
    ensures SortModeOf(Some(SortOrderValueOf(m))) == m
    ensures SortOrderValueOf(SortModeOf(order)) == order.UnwrapOr(FromConfigOrder)
  {
    if m.Builtin? {
      SortKindBijective(SortNoteCreation, m.kind);
    }
    if order.Some? && order.value.BuiltinOrder? {
      SortKindBijective(order.value.builtin.kind, KindNoteCreation);
    }
  }

  /** The order `search_cards` resolves: `input.order.unwrap_or_default().value`. */
  function RequestSortMode(order: Option<SortOrderMsg>): (m: SortMode)
    ensures order.None? ==> m == FromConfig
    ensures order.Some? ==> m == SortModeOf(order.value.value)
  {
    SortModeOf(order.UnwrapOr(SortOrderMsg(None)).value)
  }
}

=== FILE: wrappers.dfy ===
/** Failure-compatible result types shared by the whole model.

    `Option` stands for Rust's `Option`, and for a protobuf enum value that
    failed to decode (`from_i32` returning `None`). `Result` stands for
    `Result<T, AnkiError>`; the builder uses it with `:-` the way the Rust
    code uses `?`.
 */
module Wrappers {

  datatype Option<+T> = None | Some(value: T) {

    /** The `unwrap_or` of Rust: the carried value, or `default` when absent. */
    function UnwrapOr(default: T): T {
      match this
      case Some(v) => v
      case None => default
    }
  }

  /** The two error kinds the search layer can report: the builder's own
      invalid-input error, and whatever error the free-text parser reports. */
  datatype AnkiError =
    | InvalidInput(info: string)
    | SearchError(info: string)

  datatype Result<+T> = Ok(value: T) | Err(error: AnkiError) {

    predicate IsFailure() {
      Err?
    }

    function PropagateFailure<U>(): Result<U>
      requires Err?
    {
      Err(error)
    }

    function Extract(): T
      requires Ok?
    {
      value
    }
  }
}
